=== FILE: README.md ===
# Flappy Bird scene simulation, modelled in Dafny

This project models the simulation core of the Flappy Bird clone's
`GameScene`: the per-frame update, the touch handler, the contact handler,
the player's gravity integration and flap, the scrolling ground tiles, the
obstacle spawn geometry, the one-point-per-pair scoring, and the game-state
switches with the best-score rule of the scorecard.

One session (one `GameScene` instance) is an immutable record,
`SceneState.Scene`: the `GameState`, the two contact flags `hitGround` and
`hitObstacle`, the clock (`lastUpdateTime`, `dt`), the player's position and
velocity, the x positions of the two ground tiles, the obstacle sprites
(kind, x, y, passed mark), `score`, `bestScore`, and `spawning`, which stands
for the keyed "spawn" action being installed. Every method of the scene is a
pure function from one record to the next. The sizes the scene reads from its
view and textures at run time (scene width, playable band, sprite sizes) are
a `Geometry.Sizes` parameter with positive lengths; the tuning constants
(`kGravity`, `kImpluse`, `kGroundSpeed`, the two height fractions,
`kGapMultiplier`) keep their values. `CGFloat` and `NSTimeInterval` are
modelled as `real`: idealised exact arithmetic.

Modules, grouped by the scene's methods:

- `Geometry`: vectors, the constants, `Sizes`.
- `SceneState`: the record, the session invariant `Inv`, `NewGame`.
- `Player`: `updatePlayer` and `flapPlayer`.
- `Foreground`: `updateForeground` and its wrap rule.
- `Obstacles`: `updateScore`, `spawnObstacle`, the spawn action, and the
  obstacles' move-and-remove actions.
- `Transitions`: `switchToFalling`, `switchToShowScore`, `switchToGameOver`,
  `checkHitObstacle`, `checkHitGround`, and the best-score rule of
  `setupScorecard`.
- `Contacts`: the physics categories and `didBeginContact`.
- `GameScene`: `update` (`Tick`), `touchesBegan` (`Touch`), and the
  properties of the whole state machine.
- `Session`: any sequence of engine events (frames, touches, contacts,
  spawn firings, obstacle motion, the end of the scorecard sequence), and
  what holds along every such run. The scorecard's pop sequence is
  installed when the score is shown, so its end is modelled as taking
  effect only in ShowingScore.

Behaviour of the code that the model keeps as written:

- A session starts in Play. `gameState` defaults to `.Play`, and
  `didMoveToView` starts spawning and flaps once. No code path enters or
  leaves MainMenu or Tutorial. A touch in either state does nothing. A touch
  in ShowingScore starts a new session directly. MainMenu and Tutorial are
  declared in `GameState` but unused in this version of the scene.
- The floor clamp in `updatePlayer` uses half the player's height. The snap
  in `checkHitGround` uses half its width (`GameScene.GroundSnapUsesWidth`).
- A Play frame runs all five steps even after a check has switched the
  state. `updateScore` runs after `switchToShowScore` has already recorded
  the best score. A point earned in the frame of the ground contact therefore
  counts in `score` but not in `bestScore`
  (`GameScene.PointInGroundFrameMissesBest`).
- `setupForeground` spaces the tiles by the scene width. The wrap rule moves
  a tile by two tile widths. `Foreground.ForegroundKeepsSpacing` shows that
  the spacing is kept when it equals the tile width.
- Gameover is a dead end. `touchesBegan` ignores touches in Gameover, so a
  session that reaches it never leaves it (`Session.GameoverIsFinal`). A new
  game is only reachable by a touch during ShowingScore, before the pop
  sequence ends.
- `dt` is not clamped. A frame with `lastUpdateTime <= 0` measures a zero
  step.

## Model

| member | source | states |
|---|---|---|
| SceneState.NewGame | FlappyBird/GameScene.swift:50-81 | a fresh session is in Play with spawning on, both contact flags clear, clock at zero, velocity of one flap, player at 20% of the width and 40% up the playable band, tiles at 0 and one scene width, no obstacles, score 0, and the persisted best carried over; it satisfies the session invariant |
| Player.UpdatePlayer | FlappyBird/GameScene.swift:294-305 | velocity gains gravity times dt in y only; x advances by the new velocity times dt; y is the larger of the Euler-step height and the floor height (half the player's height above the playable start), so the player ends above the floor; nothing but position and velocity changes |
| Player.UpdatePlayerClosedForm | FlappyBird/GameScene.swift:294-305 | a scene whose position and velocity are those of one updatePlayer step of its own dt from another scene has the closed form of that step: gravity on the y velocity, the new velocity on the position, the floor clamp on y |
| Player.UpdatePlayerIsEuler | FlappyBird/GameScene.swift:294-300 | when the step stays above the floor, the position moves by exactly the new velocity times dt |
| Player.UpdatePlayerClampsToFloor | FlappyBird/GameScene.swift:302-304 | when the step would sink below the floor, y becomes exactly the floor height while x and the x velocity are those of the unclamped step |
| Player.UpdatePlayerZeroStep | FlappyBird/GameScene.swift:294-305 | with dt = 0 a player above the floor is left exactly where it was |
| Player.FlapPlayer | FlappyBird/GameScene.swift:386-388 | the velocity becomes (0, kImpluse) and nothing else changes |
| Player.FlapForgetsVelocity | FlappyBird/GameScene.swift:386-388 | a flap overwrites the velocity: two scenes that differ only in velocity are equal after the flap |
| Foreground.WrapTile | FlappyBird/GameScene.swift:310-314 | a tile moves left by the step, and is shifted right by two widths exactly when it would be further left than one width |
| Foreground.UpdateForeground | FlappyBird/GameScene.swift:307-317 | both tiles take the wrap step of length kGroundSpeed times dt; nothing else changes |
| Foreground.WrapTileStaysInStrip | FlappyBird/GameScene.swift:310-314 | if one frame moves the ground by at most a tile width, a tile in [-width, width] stays there |
| Foreground.WrapTileKeepsLowerBound | FlappyBird/GameScene.swift:310-314 | if one frame moves the ground by at most a tile width, a tile no further left than one width stays so, however far right it starts |
| Foreground.ForegroundKeepsSpacing | FlappyBird/GameScene.swift:307-317 | under the same step bound, two tiles one width apart inside the strip stay one width apart inside the strip |
| Obstacles.ScoreObstacles | FlappyBird/GameScene.swift:319-336 | each obstacle keeps its kind and position; it ends passed exactly when it was passed or is an unpassed bottom obstacle behind the player; the points earned plus the unpassed bottom obstacles left equal the unpassed bottom obstacles before |
| Obstacles.UpdateScore | FlappyBird/GameScene.swift:319-336 | the score never decreases, rises by exactly the number of bottom obstacles it newly marks passed, and only the score and passed marks change |
| Obstacles.ScoreObstaclesOnce | FlappyBird/GameScene.swift:322-326 | scoring already-scored obstacles marks nothing and earns no point |
| Obstacles.UpdateScoreIdempotent | FlappyBird/GameScene.swift:319-336 | a second updateScore with nothing moved leaves the scene unchanged |
| Obstacles.UpdateScoreKeepsTopsUnpassed | FlappyBird/GameScene.swift:319-320 | scoring never marks a top obstacle passed |
| Obstacles.FractionOf | FlappyBird/GameScene.swift:428 | the scaled draw lies between zero and the span |
| Obstacles.DrawHeight | FlappyBird/GameScene.swift:425-428 | the bottom obstacle's height lies between the minimum and maximum fraction bounds |
| Obstacles.DrawHeightCoversRange | FlappyBird/GameScene.swift:425-428 | every height between the bounds is produced by some draw of the unit interval |
| Obstacles.SpawnObstacle | FlappyBird/GameScene.swift:422-436 | appends an unpassed bottom obstacle inside the height bounds and a top obstacle kGapMultiplier player heights plus both half-heights above it, both at the scene width plus half an obstacle width; earlier obstacles and all other fields are unchanged |
| Obstacles.SpawnTimerFires | FlappyBird/GameScene.swift:448-459 | while the spawn action is installed a firing appends exactly the pair spawnObstacle builds; otherwise the scene is unchanged |
| Obstacles.SpawnKeepsTopsUnpassed | FlappyBird/GameScene.swift:429-436 | spawning keeps every top obstacle unpassed |
| Obstacles.MovedAll | FlappyBird/GameScene.swift:438-445 | every obstacle moves left by the shift in place, keeping its kind, height and passed mark, so the unpassed bottom obstacles are as many as before |
| Obstacles.Survivors | FlappyBird/GameScene.swift:438-445 | exactly the obstacles right of the end of the run remain, each as often as before, and none is added |
| Obstacles.SurvivorsKeepUnpassed | FlappyBird/GameScene.swift:438-445 | removing obstacles at the end of their run never adds a point still to be earned |
| Obstacles.Advance | FlappyBird/GameScene.swift:438-445 | every survivor lies right of the end of the run and is some original obstacle moved left by the shift; every original obstacle whose move stays right of the end survives, moved; each survivor occurs exactly as often as among the moved obstacles; the unpassed bottom obstacles never become more |
| Obstacles.ScrollObstacles | FlappyBird/GameScene.swift:461-469 | once spawning has stopped the obstacles are frozen; while it runs they move left and leave at the end of their run, each survivor as often as among the moved obstacles, and the unpassed bottom obstacles never become more |
| Obstacles.SurvivorsKeepTopsUnpassed | FlappyBird/GameScene.swift:438-445 | removing obstacles at the end of their run keeps every top obstacle unpassed |
| Obstacles.ScrollKeepsTopsUnpassed | FlappyBird/GameScene.swift:438-445 | moving and removing obstacles keeps every top obstacle unpassed |
| Transitions.ScorecardBest | FlappyBird/GameScene.swift:177-180 | the recorded best is the maximum of the score and the stored best |
| Transitions.SwitchToFalling | FlappyBird/GameScene.swift:357-366 | the state becomes Falling, spawning stops, nothing else changes |
| Transitions.SwitchToShowScore | FlappyBird/GameScene.swift:368-373 | the state becomes ShowingScore, spawning stops, the best score becomes the maximum of score and old best, nothing else changes |
| Transitions.SwitchToGameOver | FlappyBird/GameScene.swift:382-384 | only the state changes, to Gameover |
| Transitions.CheckHitObstacle | FlappyBird/GameScene.swift:338-343 | the obstacle flag ends clear; a set flag moves the game to Falling with spawning stopped; a clear flag changes nothing |
| Transitions.CheckHitGround | FlappyBird/GameScene.swift:345-354 | the ground flag ends clear; a set flag zeroes the velocity, snaps y to half the player's width above the playable start, and shows the score with the best-score rule; a clear flag changes nothing |
| Transitions.ChecksIdempotent | FlappyBird/GameScene.swift:338-354 | running either check twice is the same as running it once |
| Contacts.CategoriesAreDistinctBits | FlappyBird/GameScene.swift:28-33 | the player, obstacle and ground categories are single bits with no bit in common |
| Contacts.Contact | FlappyBird/GameScene.swift:481-490 | the ground flag is raised exactly when the non-player body is ground, the obstacle flag exactly when it is an obstacle; raised flags stay raised; nothing else changes |
| Contacts.ContactOrderIrrelevant | FlappyBird/GameScene.swift:481-482 | when either body is the player, swapping the two bodies gives the same scene |
| Contacts.ContactSetsOneFlag | FlappyBird/GameScene.swift:484-489 | a ground contact raises only the ground flag, an obstacle contact only the obstacle flag, and any other body neither |
| GameScene.PlayFrame | FlappyBird/GameScene.swift:117-122 | a Play frame of length dt scrolls both tiles by the wrap step, takes one updatePlayer step unless a ground contact snaps the player, which keeps the stepped x, clears both flags, ends in ShowingScore, Falling or Play by the flags, records the best score only on a ground contact; the obstacles keep their order and positions and exactly the unpassed bottom ones whose right edge lies behind the player's final x become passed, each worth one point; a ground contact stops the player |
| GameScene.FallingFrame | FlappyBird/GameScene.swift:123-126 | a Falling frame of length dt leaves tiles, obstacles, score and the obstacle flag alone, takes one updatePlayer step unless a ground contact snaps the player, which keeps the stepped x, and goes to ShowingScore exactly on a ground contact, which stops the player |
| GameScene.Tick | FlappyBird/GameScene.swift:101-134 | the clock becomes the current time and dt is the difference, or 0 when there was no earlier time; outside Play and Falling nothing else changes; Falling never scores, never consumes the obstacle flag and goes to ShowingScore exactly on a ground contact; Play clears both flags and ends in ShowingScore, Falling or Play by the flags; Play marks passed exactly the unpassed bottom obstacles behind the player's final x and scores one point for each, changing nothing else about the obstacles; a ground contact in Play or Falling stops the player and keeps the x of the updatePlayer step; Play scrolls both tiles by the wrap step of length kGroundSpeed times dt; without a ground contact Play and Falling take one updatePlayer step of length dt; score and best never decrease; a player still in Play or Falling is above the floor |
| GameScene.Touch | FlappyBird/GameScene.swift:83-99 | in Play the velocity becomes (0, kImpluse); in ShowingScore a new session keeps only the best score; in every other state nothing changes |
| GameScene.OperationsFollowStateMachine | FlappyBird/GameScene.swift:83-134 | every frame and touch moves along an edge of the state machine, contacts and engine actions keep the state, and game-over follows ShowingScore |
| GameScene.NoScoreAfterPlay | FlappyBird/GameScene.swift:112-132 | outside Play a frame never changes the score or returns to Play; a touch returns to Play only as a new session with score 0 |
| GameScene.InvInitially | FlappyBird/GameScene.swift:69-81 | a new session satisfies the invariant: spawning exactly in Play, top obstacles unpassed |
| GameScene.TickKeepsInv | FlappyBird/GameScene.swift:101-134 | a frame keeps the invariant |
| GameScene.TouchKeepsInv | FlappyBird/GameScene.swift:83-99 | a touch keeps the invariant |
| GameScene.ContactKeepsInv | FlappyBird/GameScene.swift:481-490 | a contact keeps the invariant |
| GameScene.EngineActionsKeepInv | FlappyBird/GameScene.swift:448-469 | the spawn action, the obstacle motion, and game-over after ShowingScore keep the invariant |
| GameScene.ObstaclesFrozenOutsidePlay | FlappyBird/GameScene.swift:461-469 | under the invariant, outside Play no obstacle is spawned or moved |
| GameScene.TickIntegratesPlayerInPlay | FlappyBird/GameScene.swift:117-119 | without a ground contact, a Play frame adds gravity times dt to the y velocity and moves x by the new x velocity times dt |
| GameScene.TickClampsPlayerInPlay | FlappyBird/GameScene.swift:117-119 | without a ground contact, a Play frame leaves y at the larger of the Euler-step height and the floor height |
| GameScene.TickIntegratesPlayerWhileFalling | FlappyBird/GameScene.swift:123-125 | without a ground contact, a Falling frame takes the same Euler step with the floor clamp |
| GameScene.BothContactsInOneFrame | FlappyBird/GameScene.swift:117-121 | with both flags set, a Play frame ends in ShowingScore with both flags clear and spawning stopped |
| GameScene.GroundSnapUsesWidth | FlappyBird/GameScene.swift:345-354 | a frame that consumes a ground contact leaves y at half the player's width above the playable start, which is below the clamp's floor for a player taller than it is wide |
| GameScene.GroundContactEndsGame | FlappyBird/GameScene.swift:117-121 | a ground contact reported in Play ends the next frame in ShowingScore with the player stopped and the best score the maximum of score and old best |
| GameScene.FirstFrameStandsStill | FlappyBird/GameScene.swift:103-108 | the first frame of a session measures dt = 0 and, when the start height is above the floor, moves neither player nor ground |
| GameScene.FirstSpawn | FlappyBird/GameScene.swift:422-436 | the first spawn of a session yields exactly one pair, with one unpassed bottom obstacle inside the height bounds |
| GameScene.PointInGroundFrameMissesBest | FlappyBird/GameScene.swift:117-122 | for a concrete scene, the frame of a ground contact ends with score 1 and best score 0: the point is earned after the best score is recorded |
| Session.Step | FlappyBird/GameScene.swift:83-134 | every engine event moves the game along an edge of the state machine and never lowers the best score |
| Session.StepKeepsInv | FlappyBird/GameScene.swift:83-134 | every engine event keeps the session invariant |
| Session.RunKeepsInv | FlappyBird/GameScene.swift:101-134 | along any run of events from a scene that satisfies the invariant, spawning stays on exactly in Play and no top obstacle is ever marked passed |
| Session.RunKeepsBest | FlappyBird/GameScene.swift:177-180 | along any run of events, new sessions included, the best score never decreases |
| Session.GameoverIsFinal | FlappyBird/GameScene.swift:83-99 | from Gameover no run of events leaves Gameover or changes score, best score, obstacles, position or velocity |

## Left out

- Player.UpdatePlayer: the player's rotation is not modelled. Neither is the
  -90° rotation `checkHitGround` sets. The scene has no rotation field.
- Obstacles.SpawnObstacle: the random draw is the parameter `u` of the unit
  interval, scaled into the height range. The `CGFloat.random` helper and its
  random source are not part of this model.
- Obstacles.ScrollObstacles: the engine's `moveByX`/`removeFromParent`
  actions are modelled as a shift of any length. An obstacle leaves when its
  centre reaches half a width left of the screen, the end of its run. The
  action's exact duration and timing are not modelled.
- Obstacles.SpawnTimerFires: the 1.75 s first delay and the 1.5 s period are
  engine scheduling. The model only says whether the action is installed.
- GameScene.Touch: `switchToNewGame` is modelled as "returns a fresh
  session". The pop sound, the fade transition and the presentation of the
  new scene are not modelled.
- Sounds, the sombrero bob, the score label text, and the scorecard's
  sprites and animations are not modelled. The same goes for the pop
  sequence that ends in `switchToGameOver`. They are engine-driven
  presentation. `SwitchToGameOver` is modelled as the function the sequence
  calls.
- Scene-graph construction is not modelled: `setupBackground`,
  `setupForeground`, `setupPlayer`, `setupSombrero`, `setupLabel`,
  `createObstacle`'s physics polygon, the layers and z positions. The top
  obstacle's `zPosition` of 180° in radians is one of these. The sizes they
  produce are the `Sizes` parameter.
- The best score's persistence (`NSUserDefaults`) is a plain integer field
  that a new session carries over.
- The score is an unbounded natural number. The game's `score += 1` is Swift
  `Int` arithmetic, which traps on overflow; no session of the game comes near
  that bound.
- The engine detects collisions. Contacts arrive as the two bodies'
  categories.
- `CGFloat` floating-point rounding is not modelled. Arithmetic is exact over
  the reals.
- FlappyBird/GameViewController.swift is view-controller plumbing and is not
  part of this model.

=== FILE: contacts.dfy ===
/** Contact notifications from the physics engine. The engine detects the
    overlap; the scene only records which kind of body the player touched,
    and the next frame consumes the record. */
module Contacts {
  import opened SceneState

  /** Physics categories: one bit each. */
  const NoCategory: bv32 := 0
  const PlayerCategory: bv32 := 0x1
  const ObstacleCategory: bv32 := 0x2
  const GroundCategory: bv32 := 0x4

  predicate SingleBit(c: bv32)
  {
    c != 0 && c & (c - 1) == 0
  }

  /** The three categories are single bits that share none. */
  lemma CategoriesAreDistinctBits()
    ensures SingleBit(PlayerCategory) && SingleBit(ObstacleCategory) && SingleBit(GroundCategory)
    ensures PlayerCategory & ObstacleCategory == 0
    ensures PlayerCategory & GroundCategory == 0
    ensures ObstacleCategory & GroundCategory == 0
  {
  }

  /** The body of a contact that is not the player: body B when body A is
      the player, body A otherwise. */
  function OtherBody(a: bv32, b: bv32): (c: bv32)
    ensures c == a || c == b
    ensures a == PlayerCategory ==> c == b
    ensures a != PlayerCategory ==> c == a
  {
    if a == PlayerCategory then b else a
  }

  /** didBeginContact: a ground body sets the ground flag, an obstacle body
      the obstacle flag; flags already set stay set and nothing else of the
      scene changes. */
  function Contact(s: Scene, a: bv32, b: bv32): (r: Scene)
    ensures r.hitGround <==> s.hitGround || OtherBody(a, b) == GroundCategory
    ensures r.hitObstacle <==> s.hitObstacle || OtherBody(a, b) == ObstacleCategory
    ensures r == s.(hitGround := r.hitGround, hitObstacle := r.hitObstacle)
  {
    var other := OtherBody(a, b);
    var s1 := if other == GroundCategory then s.(hitGround := true) else s;
    if other == ObstacleCategory then s1.(hitObstacle := true) else s1
  }

  /** When one of the two bodies is the player, the order in which the
      engine reports them does not matter. */
  lemma ContactOrderIrrelevant(s: Scene, a: bv32, b: bv32)
    requires a == PlayerCategory || b == PlayerCategory
    ensures Contact(s, a, b) == Contact(s, b, a)
  {
  }

  /** A ground contact never raises the obstacle flag and an obstacle
      contact never raises the ground flag. */
  lemma ContactSetsOneFlag(s: Scene, other: bv32)
    ensures other == GroundCategory ==>
      Contact(s, PlayerCategory, other) == s.(hitGround := true)
    ensures other == ObstacleCategory ==>
      Contact(s, PlayerCategory, other) == s.(hitObstacle := true)
    ensures other != GroundCategory && other != ObstacleCategory ==>
      Contact(s, PlayerCategory, other) == s
  {
  }
}

=== FILE: foreground.dfy ===
/** The scrolling ground: two tiles move left and each one that has left
    the screen jumps right by two tile widths. */
module Foreground {
  import opened Geometry
  import opened SceneState

  /** One tile moved left by `step`; a tile that ends up further left than
      one tile width is shifted right by two tile widths. */
  function WrapTile(x: real, step: real, width: real): (r: real)
    requires width > 0.0
    ensures r == x - step || r == x - step + 2.0 * width
    ensures r == x - step + 2.0 * width <==> x - step < -width
  {
    var moved := x - step;
    if moved < -width then moved + 2.0 * width else moved
  }

  /** Both tiles advance by the distance the ground covers in `s.dt`. */
  function UpdateForeground(s: Scene, z: Sizes): (r: Scene)
    requires z.Valid()
    ensures r.tileA == WrapTile(s.tileA, GroundSpeed * s.dt, z.tileWidth)
    ensures r.tileB == WrapTile(s.tileB, GroundSpeed * s.dt, z.tileWidth)
    ensures r == s.(tileA := r.tileA, tileB := r.tileB)
  {
    var step := GroundSpeed * s.dt;
    s.(tileA := WrapTile(s.tileA, step, z.tileWidth), tileB := WrapTile(s.tileB, step, z.tileWidth))
  }

  /** A tile that starts within one width of the origin stays there as long
      as one frame moves the ground by at most one tile width. */
  lemma WrapTileStaysInStrip(x: real, step: real, width: real)
    requires width > 0.0 && 0.0 <= step <= width
    requires -width <= x <= width
    ensures -width <= WrapTile(x, step, width) <= width
  {
  }

  /** The lower bound alone: a tile no further left than one width stays so,
      wherever it starts on the right (the second tile starts one scene
      width to the right). */
  lemma WrapTileKeepsLowerBound(x: real, step: real, width: real)
    requires width > 0.0 && 0.0 <= step <= width
    requires -width <= x
    ensures -width <= WrapTile(x, step, width)
  {
  }

  /** Two tiles that lie one width apart inside the strip still do so after
      a frame that moves the ground by at most one tile width: the wrap swaps
      which tile leads. */
  lemma ForegroundKeepsSpacing(s: Scene, z: Sizes)
    requires z.Valid() && 0.0 <= GroundSpeed * s.dt <= z.tileWidth
    requires -z.tileWidth <= s.tileA <= z.tileWidth && -z.tileWidth <= s.tileB <= z.tileWidth
    requires s.tileB == s.tileA + z.tileWidth || s.tileA == s.tileB + z.tileWidth
    ensures var r := UpdateForeground(s, z);
      && -z.tileWidth <= r.tileA <= z.tileWidth && -z.tileWidth <= r.tileB <= z.tileWidth
      && (r.tileB == r.tileA + z.tileWidth || r.tileA == r.tileB + z.tileWidth)
  {
    var step := GroundSpeed * s.dt;
    var w := z.tileWidth;
    WrapTileStaysInStrip(s.tileA, step, w);
    WrapTileStaysInStrip(s.tileB, step, w);
  }
}

=== FILE: game_scene.dfy ===
/** The scene's two entry points driven by the engine, the per-frame
    update and the touch handler, and the properties of the whole state
    machine they make up. */
module GameScene {
  import opened Geometry
  import opened SceneState
  import opened Player
  import opened Foreground
  import opened Obstacles
  import opened Transitions
  import opened Contacts

  /** The Play part of a frame of length `dt`: scroll the ground, move the
      player, consume the obstacle flag, then the ground flag, then score. */
  function PlayFrame(s: Scene, z: Sizes, currentTime: real, dt: real): (r: Scene)
    requires z.Valid() && s.state == Play
    ensures r.lastUpdateTime == currentTime && r.dt == dt
    ensures !r.hitObstacle && !r.hitGround
    ensures if s.hitGround then r.state == ShowingScore
            else if s.hitObstacle then r.state == Falling
            else r.state == Play
    ensures r.score - s.score + Unpassed(r.obstacles) == Unpassed(s.obstacles)
    ensures r.score >= s.score
    ensures MarksCrossed(s.obstacles, r.obstacles, r.position.x, z.obstacleWidth)
    ensures r.bestScore == (if s.hitGround then ScorecardBest(s.score, s.bestScore) else s.bestScore)
    ensures r.tileA == WrapTile(s.tileA, GroundSpeed * r.dt, z.tileWidth)
    ensures r.tileB == WrapTile(s.tileB, GroundSpeed * r.dt, z.tileWidth)
    ensures r.position.x == UpdatePlayer(s.(dt := dt), z).position.x
    ensures s.hitGround ==> r.position.y == z.playableStart + z.playerWidth / 2.0 && r.velocity == Zero
    ensures !s.hitGround ==>
      && r.velocity == UpdatePlayer(s.(dt := dt), z).velocity
      && r.position == UpdatePlayer(s.(dt := dt), z).position
      && AboveFloor(r, z)
  {
    var scrolled := UpdateForeground(s.(lastUpdateTime := currentTime, dt := dt), z);
    var moved := UpdatePlayer(scrolled, z);
    var checked := CheckHitGround(CheckHitObstacle(moved), z);
    assert checked.obstacles == s.obstacles && checked.score == s.score;
    UpdateScore(checked, z)
  }

  /** The Falling part of a frame of length `dt`: move the player, consume
      the ground flag. */
  function FallingFrame(s: Scene, z: Sizes, currentTime: real, dt: real): (r: Scene)
    requires z.Valid() && s.state == Falling
    ensures r.lastUpdateTime == currentTime && r.dt == dt
    ensures r.score == s.score && r.obstacles == s.obstacles
    ensures r.hitObstacle == s.hitObstacle && !r.hitGround
    ensures r.tileA == s.tileA && r.tileB == s.tileB
    ensures r.state == (if s.hitGround then ShowingScore else Falling)
    ensures r.bestScore == (if s.hitGround then ScorecardBest(s.score, s.bestScore) else s.bestScore)
    ensures r.position.x == UpdatePlayer(s.(dt := dt), z).position.x
    ensures s.hitGround ==> r.position.y == z.playableStart + z.playerWidth / 2.0 && r.velocity == Zero
    ensures !s.hitGround ==>
      && r.velocity == UpdatePlayer(s.(dt := dt), z).velocity
      && r.position == UpdatePlayer(s.(dt := dt), z).position
      && AboveFloor(r, z)
  {
    CheckHitGround(UpdatePlayer(s.(lastUpdateTime := currentTime, dt := dt), z), z)
  }

  /** One frame at engine time `currentTime`. The clock is updated first
      (a scene that has never ticked measures a zero step); then Play scrolls
      the ground, moves the player, consumes both contact flags and scores,
      in that order, and Falling only moves the player and consumes a ground
      contact. Every other state only updates the clock. A switch made by a
      check does not stop the remaining steps of the same frame. */
  function Tick(s: Scene, z: Sizes, currentTime: real): (r: Scene)
    requires z.Valid()
    ensures r.lastUpdateTime == currentTime
    ensures r.dt == (if s.lastUpdateTime > 0.0 then currentTime - s.lastUpdateTime else 0.0)
    ensures !InFlight(s.state) ==> r == s.(lastUpdateTime := currentTime, dt := r.dt)
    ensures s.state == Falling ==>
      && r.score == s.score && r.obstacles == s.obstacles
      && r.hitObstacle == s.hitObstacle
      && r.tileA == s.tileA && r.tileB == s.tileB
      && !r.hitGround
      && (if s.hitGround then r.state == ShowingScore else r.state == Falling)
    ensures s.state == Play ==>
      && !r.hitObstacle && !r.hitGround
      && (if s.hitGround then r.state == ShowingScore
          else if s.hitObstacle then r.state == Falling
          else r.state == Play)
      && r.score - s.score + Unpassed(r.obstacles) == Unpassed(s.obstacles)
      && MarksCrossed(s.obstacles, r.obstacles, r.position.x, z.obstacleWidth)
    ensures InFlight(s.state) ==> r.position.x == UpdatePlayer(s.(dt := r.dt), z).position.x
    ensures InFlight(s.state) && s.hitGround ==> r.velocity == Zero
    ensures InFlight(s.state) && s.hitGround ==>
      r.bestScore == ScorecardBest(s.score, s.bestScore)
    ensures !(InFlight(s.state) && s.hitGround) ==> r.bestScore == s.bestScore
    ensures r.score >= s.score && r.bestScore >= s.bestScore
    ensures InFlight(s.state) && InFlight(r.state) ==> AboveFloor(r, z)
    ensures s.state == Play ==>
      && r.tileA == WrapTile(s.tileA, GroundSpeed * r.dt, z.tileWidth)
      && r.tileB == WrapTile(s.tileB, GroundSpeed * r.dt, z.tileWidth)
    ensures InFlight(s.state) && !s.hitGround ==>
      && r.velocity == UpdatePlayer(s.(dt := r.dt), z).velocity
      && r.position == UpdatePlayer(s.(dt := r.dt), z).position
  {
    var dt := if s.lastUpdateTime > 0.0 then currentTime - s.lastUpdateTime else 0.0;
    match s.state
    case Play => PlayFrame(s, z, currentTime, dt)
    case Falling => FallingFrame(s, z, currentTime, dt)
    case _ => s.(lastUpdateTime := currentTime, dt := dt)
  }

  /** A touch flaps in Play and starts a new session from ShowingScore; in
      every other state it is ignored. The new session keeps only the best
      score. */
  function Touch(s: Scene, z: Sizes): (r: Scene)
    ensures s.state == Play ==> r == s.(velocity := Vec(0.0, Impulse))
    ensures s.state == ShowingScore ==> r == NewGame(z, s.bestScore)
    ensures s.state !in {Play, ShowingScore} ==> r == s
  {
    match s.state
    case Play => FlapPlayer(s)
    case ShowingScore => NewGame(z, s.bestScore)
    case _ => s
  }

  // ---------------------------------------------------------------- state machine

  /** The edges of the game-state machine this scene implements (a state may
      also stay where it is). MainMenu and Tutorial have no edges: no code
      path enters or leaves them. */
  predicate CanStep(from: GameState, to: GameState)
  {
    || from == to
    || (from == Play && to in {Falling, ShowingScore})
    || (from == Falling && to == ShowingScore)
    || (from == ShowingScore && to in {Play, Gameover})
  }

  /** Every operation of the scene moves along an edge of the machine. */
  lemma OperationsFollowStateMachine(s: Scene, z: Sizes, t: real, a: bv32, b: bv32, u: real, shift: real)
    requires z.Valid() && 0.0 <= u <= 1.0 && shift >= 0.0
    ensures CanStep(s.state, Tick(s, z, t).state)
    ensures CanStep(s.state, Touch(s, z).state)
    ensures Contact(s, a, b).state == s.state
    ensures SpawnTimerFires(s, z, u).state == s.state
    ensures ScrollObstacles(s, z, shift).state == s.state
    ensures s.state == ShowingScore ==> CanStep(s.state, SwitchToGameOver(s).state)
  {
  }

  /** Once the session has left Play it never scores again: neither a frame
      nor any other operation outside Play changes the score, and the only
      way back to Play is a new session with score zero. */
  lemma NoScoreAfterPlay(s: Scene, z: Sizes, t: real)
    requires z.Valid() && s.state != Play
    ensures Tick(s, z, t).score == s.score
    ensures Tick(s, z, t).state != Play
    ensures Touch(s, z).state == Play ==> Touch(s, z).score == 0
  {
  }

  /** A new session satisfies the invariant, and every operation keeps it. */
  lemma InvInitially(z: Sizes, best: int)
    ensures Inv(NewGame(z, best))
  {
  }

  lemma TickKeepsInv(s: Scene, z: Sizes, t: real)
    requires z.Valid() && Inv(s)
    ensures Inv(Tick(s, z, t))
  {
    if s.state == Play {
      var dt := if s.lastUpdateTime > 0.0 then t - s.lastUpdateTime else 0.0;
      var moved := UpdatePlayer(UpdateForeground(s.(lastUpdateTime := t, dt := dt), z), z);
      var checked := CheckHitGround(CheckHitObstacle(moved), z);
      assert checked.obstacles == s.obstacles;
      UpdateScoreKeepsTopsUnpassed(checked, z);
    }
  }

  lemma TouchKeepsInv(s: Scene, z: Sizes)
    requires Inv(s)
    ensures Inv(Touch(s, z))
  {
  }

  lemma ContactKeepsInv(s: Scene, a: bv32, b: bv32)
    requires Inv(s)
    ensures Inv(Contact(s, a, b))
  {
  }

  lemma EngineActionsKeepInv(s: Scene, z: Sizes, u: real, shift: real)
    requires z.Valid() && 0.0 <= u <= 1.0 && shift >= 0.0 && Inv(s)
    ensures Inv(SpawnTimerFires(s, z, u))
    ensures Inv(ScrollObstacles(s, z, shift))
    ensures s.state == ShowingScore ==> Inv(SwitchToGameOver(s))
  {
    SpawnKeepsTopsUnpassed(s, z, u);
    ScrollKeepsTopsUnpassed(s, z, shift);
  }

  /** Outside Play nothing new appears: with the invariant, neither the
      spawn action nor the obstacle motion changes the obstacles. */
  lemma ObstaclesFrozenOutsidePlay(s: Scene, z: Sizes, u: real, shift: real)
    requires z.Valid() && 0.0 <= u <= 1.0 && shift >= 0.0 && Inv(s) && s.state != Play
    ensures SpawnTimerFires(s, z, u) == s
    ensures ScrollObstacles(s, z, shift) == s
  {
  }

  // ---------------------------------------------------------------- frame properties

  /** Without a pending ground contact, a Play frame moves the player by
      one explicit Euler step of the measured length: gravity first changes
      the vertical speed, then the new velocity moves the player. */
  lemma TickIntegratesPlayerInPlay(s: Scene, z: Sizes, t: real)
    requires z.Valid() && s.state == Play && !s.hitGround
    ensures var r := Tick(s, z, t);
      && r.velocity == Vec(s.velocity.x, s.velocity.y + Gravity * r.dt)
      && r.position.x == s.position.x + r.velocity.x * r.dt
  {
    UpdatePlayerClosedForm(s, z, Tick(s, z, t));
  }

  /** ... and the floor clamp of that step lifts a player that sank below
      the floor height back onto it. */
  lemma TickClampsPlayerInPlay(s: Scene, z: Sizes, t: real)
    requires z.Valid() && s.state == Play && !s.hitGround
    ensures var r := Tick(s, z, t);
      r.position.y == Max(s.position.y + r.velocity.y * r.dt, FloorY(z))
  {
    UpdatePlayerClosedForm(s, z, Tick(s, z, t));
  }

  /** The same step, clamp included, in a Falling frame without a pending
      ground contact. */
  lemma TickIntegratesPlayerWhileFalling(s: Scene, z: Sizes, t: real)
    requires z.Valid() && s.state == Falling && !s.hitGround
    ensures var r := Tick(s, z, t);
      && r.velocity == Vec(s.velocity.x, s.velocity.y + Gravity * r.dt)
      && r.position.x == s.position.x + r.velocity.x * r.dt
      && r.position.y == Max(s.position.y + r.velocity.y * r.dt, FloorY(z))
  {
    UpdatePlayerClosedForm(s, z, Tick(s, z, t));
  }

  /** Both flags pending in one Play frame: the obstacle check switches to
      Falling, the ground check then switches on to ShowingScore, and both
      flags end up cleared. */
  lemma BothContactsInOneFrame(s: Scene, z: Sizes, t: real)
    requires z.Valid() && s.state == Play && s.hitGround && s.hitObstacle
    ensures var r := Tick(s, z, t);
      r.state == ShowingScore && !r.hitGround && !r.hitObstacle && !r.spawning
  {
  }

  /** The ground snap of a frame that consumes a ground contact uses half the
      player's width; for a player taller than it is wide this leaves the
      player partly below the floor the clamp maintains. */
  lemma GroundSnapUsesWidth(s: Scene, z: Sizes, t: real)
    requires z.Valid() && InFlight(s.state) && s.hitGround
    ensures Tick(s, z, t).position.y == z.playableStart + z.playerWidth / 2.0
    ensures z.playerWidth < z.playerHeight ==> !AboveFloor(Tick(s, z, t), z)
  {
  }

  /** A ground contact reported during Play ends the game on the next frame,
      and the best score becomes the larger of the stored best and the score
      at that moment. */
  lemma GroundContactEndsGame(s: Scene, z: Sizes, t: real)
    requires z.Valid() && s.state == Play
    ensures var r := Tick(Contact(s, PlayerCategory, GroundCategory), z, t);
      && r.state == ShowingScore && !r.spawning && r.velocity == Zero
      && r.bestScore == ScorecardBest(s.score, s.bestScore)
  {
  }

  /** The first frame of a session measures a zero step, so it moves neither
      the player nor the ground. */
  lemma FirstFrameStandsStill(z: Sizes, best: int, t: real)
    requires z.Valid() && z.playableHeight * 0.4 >= z.playerHeight / 2.0
    ensures var s := NewGame(z, best);
      var r := Tick(s, z, t);
      && r.dt == 0.0 && r.lastUpdateTime == t
      && r.position == s.position && r.velocity == s.velocity
      && r.tileA == s.tileA && r.tileB == s.tileB
      && r.state == Play
  {
    var s := NewGame(z, best);
    var clocked := s.(lastUpdateTime := t, dt := 0.0);
    var fg := UpdateForeground(clocked, z);
    assert fg.tileA == s.tileA && fg.tileB == s.tileB;
    UpdatePlayerZeroStep(fg, z);
  }

  /** A spawn during the first Play of a session yields exactly one pair,
      its bottom obstacle unpassed and inside the configured band. */
  lemma FirstSpawn(z: Sizes, best: int, u: real)
    requires z.Valid() && 0.0 <= u <= 1.0
    ensures var r := SpawnTimerFires(NewGame(z, best), z, u);
      && |r.obstacles| == 2
      && r.obstacles[0].kind == Bottom && !r.obstacles[0].passed
      && BottomMin(z) <= r.obstacles[0].y <= BottomMax(z)
      && r.obstacles[1].kind == Top
      && Unpassed(r.obstacles) == 1
  {
    var r := SpawnTimerFires(NewGame(z, best), z, u);
    assert r.obstacles[1..][1..] == [];
    assert Unpassed(r.obstacles[1..]) == 0;
  }

  /** The scorecard records the best score before the frame's own scoring
      runs, so a point earned in the frame of the ground contact is counted
      in the score but not in the best score. */
  lemma PointInGroundFrameMissesBest()
    ensures var z := Sizes(320.0, 100.0, 400.0, 40.0, 30.0, 320.0, 50.0, 300.0);
      var s := NewGame(z, 0).(hitGround := true, obstacles := [Obstacle(Bottom, 0.0, 200.0, false)]);
      var r := Tick(s, z, 1.0);
      r.state == ShowingScore && r.score == 1 && r.bestScore == 0
  {
    var z := Sizes(320.0, 100.0, 400.0, 40.0, 30.0, 320.0, 50.0, 300.0);
    var s := NewGame(z, 0).(hitGround := true, obstacles := [Obstacle(Bottom, 0.0, 200.0, false)]);
    var checked := CheckHitGround(CheckHitObstacle(UpdatePlayer(UpdateForeground(s.(lastUpdateTime := 1.0, dt := 0.0), z), z)), z);
    assert checked.position.x == 64.0;
    assert Crossed(checked.obstacles[0], checked.position.x, z.obstacleWidth);
    assert checked.obstacles[1..] == [];
  }
}

=== FILE: geometry.dfy ===
/** Plane geometry and the fixed tuning of the Flappy Bird scene.

    The game keeps every coordinate, speed and time as a `CGFloat` or an
    `NSTimeInterval`. This model uses Dafny's `real` instead: idealised exact
    arithmetic, with no rounding, overflow or NaN anywhere.
 */
module Geometry {

  /** A point or a vector of the scene (CGPoint in the game). */
  datatype Vec = Vec(x: real, y: real)

  const Zero: Vec := Vec(0.0, 0.0)

  function Add(a: Vec, b: Vec): (r: Vec)
  {
    Vec(a.x + b.x, a.y + b.y)
  }

  function Scale(a: Vec, k: real): (r: Vec)
  {
    Vec(a.x * k, a.y * k)
  }

  function Max(a: real, b: real): (r: real)
  {
    if a < b then b else a
  }

  /** Downward acceleration of the player (kGravity). */
  const Gravity: real := -150.0
  /** Upward speed a flap gives the player (kImpluse, spelled so in the game). */
  const Impulse: real := 150.0
  /** Leftward speed of the ground and of the obstacles (kGroundSpeed). */
  const GroundSpeed: real := 150.0
  /** Bounds of the bottom obstacle's random height, as fractions of the playable height. */
  const BottomObstacleMinFraction: real := 0.1
  const BottomObstacleMaxFraction: real := 0.6
  /** Gap between an obstacle pair, in player heights (kGapMultiplier). */
  const GapMultiplier: real := 3.5

  /** The sizes the scene reads at run time from its view and textures:
      the scene width, the playable band left by the background image, and
      the sprite sizes of the player, a ground tile and a cactus obstacle. */
  datatype Sizes = Sizes(
    sceneWidth: real,
    playableStart: real,
    playableHeight: real,
    playerWidth: real,
    playerHeight: real,
    tileWidth: real,
    obstacleWidth: real,
    obstacleHeight: real)
  {
    /** Every size is a positive length. */
    predicate Valid()
    {
      && sceneWidth > 0.0
      && playableHeight > 0.0
      && playerWidth > 0.0
      && playerHeight > 0.0
      && tileWidth > 0.0
      && obstacleWidth > 0.0
      && obstacleHeight > 0.0
    }
  }
}

=== FILE: obstacles.dfy ===
/** Obstacle pairs: the spawn geometry, their engine-driven scroll and
    removal, and the one-point-per-pair scoring. */
module Obstacles {
  import opened Geometry
  import opened SceneState

  // ---------------------------------------------------------------- scoring

  /** A bottom obstacle not yet passed whose right edge lies behind the
      player's x position. */
  predicate Crossed(o: Obstacle, playerX: real, width: real)
  {
    o.kind == Bottom && !o.passed && playerX > o.x + width / 2.0
  }

  /** The number of bottom obstacles that have not been passed: the points
      still to be earned. */
  function Unpassed(obs: seq<Obstacle>): (n: nat)
  {
    if |obs| == 0 then 0
    else (if obs[0].kind == Bottom && !obs[0].passed then 1 else 0) + Unpassed(obs[1..])
  }

  /** `after` is `before` with exactly the obstacles crossed by a player at
      `playerX` marked passed, and nothing else changed. */
  predicate MarksCrossed(before: seq<Obstacle>, after: seq<Obstacle>, playerX: real, width: real)
  {
    && |after| == |before|
    && forall i :: 0 <= i < |before| ==>
         after[i] == before[i].(passed := before[i].passed || Crossed(before[i], playerX, width))
  }

  /** Scores every crossed obstacle once: it is marked passed and is worth
      one point. Returns the marked obstacles and the points earned. */
  function ScoreObstacles(obs: seq<Obstacle>, playerX: real, width: real): (r: (seq<Obstacle>, nat))
    ensures |r.0| == |obs|
    ensures forall i :: 0 <= i < |obs| ==>
      r.0[i].passed == (obs[i].passed || Crossed(obs[i], playerX, width))
    ensures forall i :: 0 <= i < |obs| ==> r.0[i] == obs[i].(passed := r.0[i].passed)
    ensures r.1 + Unpassed(r.0) == Unpassed(obs)
  {
    if |obs| == 0 then ([], 0)
    else
      var rest := ScoreObstacles(obs[1..], playerX, width);
      var hit := Crossed(obs[0], playerX, width);
      var o := if hit then obs[0].(passed := true) else obs[0];
      assert ([o] + rest.0)[1..] == rest.0;
      ([o] + rest.0, (if hit then 1 else 0) + rest.1)
  }

  /** The scene's updateScore: the points of every newly crossed bottom
      obstacle are added to the score. */
  function UpdateScore(s: Scene, z: Sizes): (r: Scene)
    ensures r.score >= s.score
    ensures r.score - s.score + Unpassed(r.obstacles) == Unpassed(s.obstacles)
    ensures |r.obstacles| == |s.obstacles|
    ensures forall i :: 0 <= i < |s.obstacles| ==>
      r.obstacles[i].passed == (s.obstacles[i].passed || Crossed(s.obstacles[i], s.position.x, z.obstacleWidth))
    ensures forall i :: 0 <= i < |s.obstacles| ==>
      r.obstacles[i] == s.obstacles[i].(passed := r.obstacles[i].passed)
    ensures r == s.(obstacles := r.obstacles, score := r.score)
  {
    var (obs, points) := ScoreObstacles(s.obstacles, s.position.x, z.obstacleWidth);
    s.(obstacles := obs, score := s.score + points)
  }

  /** Scoring is one-shot: scoring again with nothing moved marks nothing and
      adds no point. */
  lemma ScoreObstaclesOnce(obs: seq<Obstacle>, playerX: real, width: real)
    ensures var once := ScoreObstacles(obs, playerX, width).0;
      ScoreObstacles(once, playerX, width) == (once, 0)
  {
    var once := ScoreObstacles(obs, playerX, width).0;
    var twice := ScoreObstacles(once, playerX, width);
    assert twice.0 == once;
  }

  /** The same for the scene: a second updateScore changes nothing. */
  lemma UpdateScoreIdempotent(s: Scene, z: Sizes)
    ensures UpdateScore(UpdateScore(s, z), z) == UpdateScore(s, z)
  {
    ScoreObstaclesOnce(s.obstacles, s.position.x, z.obstacleWidth);
  }

  /** Scoring never marks a top obstacle. */
  lemma UpdateScoreKeepsTopsUnpassed(s: Scene, z: Sizes)
    requires TopsUnpassed(s.obstacles)
    ensures TopsUnpassed(UpdateScore(s, z).obstacles)
  {
  }

  // ---------------------------------------------------------------- spawning

  /** Lowest and highest centre of a bottom obstacle: its top lies between
      the two fractions of the playable height. */
  function BottomMin(z: Sizes): (y: real)
  {
    z.playableStart - z.obstacleHeight / 2.0 + z.playableHeight * BottomObstacleMinFraction
  }

  function BottomMax(z: Sizes): (y: real)
  {
    z.playableStart - z.obstacleHeight / 2.0 + z.playableHeight * BottomObstacleMaxFraction
  }

  /** The part `u` of a non-negative span. */
  function FractionOf(u: real, span: real): (d: real)
    requires 0.0 <= u <= 1.0 && span >= 0.0
    ensures 0.0 <= d <= span
  {
    assert u * span + (1.0 - u) * span == span;
    u * span
  }

  /** The height a draw `u` of the unit interval selects in the bottom
      obstacle's range. */
  function DrawHeight(z: Sizes, u: real): (y: real)
    requires z.Valid() && 0.0 <= u <= 1.0
    ensures BottomMin(z) <= y <= BottomMax(z)
  {
    BottomMin(z) + FractionOf(u, BottomMax(z) - BottomMin(z))
  }

  /** Every height of the range is drawn by some point of the unit interval. */
  lemma DrawHeightCoversRange(z: Sizes, y: real)
    requires z.Valid() && BottomMin(z) <= y <= BottomMax(z)
    ensures exists u :: 0.0 <= u <= 1.0 && DrawHeight(z, u) == y
  {
    var span := BottomMax(z) - BottomMin(z);
    assert span > 0.0;
    var u := (y - BottomMin(z)) / span;
    assert u * span == y - BottomMin(z);
    assert 0.0 <= u <= 1.0;
    assert DrawHeight(z, u) == y;
  }

  /** Adds one obstacle pair just beyond the right edge of the scene: the
      bottom one at the drawn height, the top one a gap of 3.5 player
      heights above it. `u` is the random draw, as a fraction of the range. */
  function SpawnObstacle(s: Scene, z: Sizes, u: real): (r: Scene)
    requires z.Valid() && 0.0 <= u <= 1.0
    ensures |r.obstacles| == |s.obstacles| + 2
    ensures r.obstacles[..|s.obstacles|] == s.obstacles
    ensures var bottom := r.obstacles[|s.obstacles|];
      var top := r.obstacles[|s.obstacles| + 1];
      && bottom.kind == Bottom && !bottom.passed
      && top.kind == Top && !top.passed
      && BottomMin(z) <= bottom.y <= BottomMax(z)
      && top.y == bottom.y + z.obstacleHeight / 2.0 + z.obstacleHeight / 2.0 + z.playerHeight * GapMultiplier
      && top.y > bottom.y
      && bottom.x == z.sceneWidth + z.obstacleWidth / 2.0
      && top.x == bottom.x
    ensures r == s.(obstacles := r.obstacles)
  {
    var startX := z.sceneWidth + z.obstacleWidth / 2.0;
    var bottomY := DrawHeight(z, u);
    var bottom := Obstacle(Bottom, startX, bottomY, false);
    var top := Obstacle(Top, startX,
      bottomY + z.obstacleHeight / 2.0 + z.obstacleHeight / 2.0 + z.playerHeight * GapMultiplier, false);
    s.(obstacles := s.obstacles + [bottom, top])
  }

  /** The "spawn" action firing: a pair appears only while the action is
      installed. */
  function SpawnTimerFires(s: Scene, z: Sizes, u: real): (r: Scene)
    requires z.Valid() && 0.0 <= u <= 1.0
    ensures !s.spawning ==> r == s
    ensures s.spawning ==> r == SpawnObstacle(s, z, u)
    ensures s.spawning ==> |r.obstacles| == |s.obstacles| + 2
    ensures r.obstacles[..|s.obstacles|] == s.obstacles
    ensures r == s.(obstacles := r.obstacles)
  {
    if s.spawning then SpawnObstacle(s, z, u) else s
  }

  /** A fresh pair carries no passed mark, so spawning keeps the top
      obstacles unpassed. */
  lemma SpawnKeepsTopsUnpassed(s: Scene, z: Sizes, u: real)
    requires z.Valid() && 0.0 <= u <= 1.0 && TopsUnpassed(s.obstacles)
    ensures TopsUnpassed(SpawnTimerFires(s, z, u).obstacles)
  {
    var r := SpawnTimerFires(s, z, u);
    if s.spawning {
      forall i | 0 <= i < |r.obstacles| && r.obstacles[i].kind == Top
        ensures !r.obstacles[i].passed
      {
        if i < |s.obstacles| {
          assert r.obstacles[i] == r.obstacles[..|s.obstacles|][i];
        }
      }
    }
  }

  // ---------------------------------------------------------------- scrolling

  /** An obstacle moved left by `shift`. */
  function Moved(o: Obstacle, shift: real): (m: Obstacle)
  {
    o.(x := o.x - shift)
  }

  /** Every obstacle moved left by `shift`, each on its own, in order. */
  function MovedAll(obs: seq<Obstacle>, shift: real): (r: seq<Obstacle>)
    ensures |r| == |obs|
    ensures forall i :: 0 <= i < |obs| ==> r[i] == Moved(obs[i], shift)
    ensures Unpassed(r) == Unpassed(obs)
  {
    if |obs| == 0 then [] else
      var rest := MovedAll(obs[1..], shift);
      assert ([Moved(obs[0], shift)] + rest)[1..] == rest;
      [Moved(obs[0], shift)] + rest
  }

  /** The obstacles of `obs` whose centre lies right of `endX`: exactly
      those, each as often as in `obs`. */
  function Survivors(obs: seq<Obstacle>, endX: real): (r: seq<Obstacle>)
    ensures |r| <= |obs|
    ensures forall o :: o in r <==> o in obs && o.x > endX
    ensures forall o :: multiset(r)[o] == (if o.x > endX then multiset(obs)[o] else 0)
  {
    if |obs| == 0 then []
    else
      var rest := Survivors(obs[1..], endX);
      assert multiset(obs) == multiset{obs[0]} + multiset(obs[1..]) by {
        assert obs == [obs[0]] + obs[1..];
      }
      if obs[0].x > endX then
        var r := [obs[0]] + rest;
        assert r[1..] == rest;
        assert multiset(r) == multiset{obs[0]} + multiset(rest);
        r
      else rest
  }

  /** Filtering never adds a point still to be earned. */
  lemma {:induction false} SurvivorsKeepUnpassed(obs: seq<Obstacle>, endX: real)
    ensures Unpassed(Survivors(obs, endX)) <= Unpassed(obs)
  {
    if |obs| > 0 {
      SurvivorsKeepUnpassed(obs[1..], endX);
      var rest := Survivors(obs[1..], endX);
      if obs[0].x > endX {
        assert ([obs[0]] + rest)[1..] == rest;
      }
    }
  }

  /** Every obstacle moved left by `shift`; those that reach the end of their
      run at `endX` are removed. Each survivor occurs exactly as often as it
      does among the moved obstacles: nothing is duplicated or invented. */
  function Advance(obs: seq<Obstacle>, shift: real, endX: real): (r: seq<Obstacle>)
    ensures |r| <= |obs|
    ensures forall o :: o in r ==> o.x > endX
    ensures forall o :: o in obs && Moved(o, shift).x > endX ==> Moved(o, shift) in r
    ensures forall o :: o in r ==> exists p :: p in obs && Moved(p, shift) == o
    ensures forall o :: multiset(r)[o] == (if o.x > endX then multiset(MovedAll(obs, shift))[o] else 0)
    ensures Unpassed(r) <= Unpassed(obs)
  {
    var all := MovedAll(obs, shift);
    var r := Survivors(all, endX);
    SurvivorsKeepUnpassed(all, endX);
    assert forall o :: o in obs ==> Moved(o, shift) in all by {
      forall o | o in obs ensures Moved(o, shift) in all {
        var i :| 0 <= i < |obs| && obs[i] == o;
        assert all[i] == Moved(o, shift);
      }
    }
    assert forall o :: o in all ==> exists p :: p in obs && Moved(p, shift) == o by {
      forall o | o in all ensures exists p :: p in obs && Moved(p, shift) == o {
        var i :| 0 <= i < |all| && all[i] == o;
        assert obs[i] in obs;
      }
    }
    r
  }

  /** The obstacles' move actions advancing by `shift`: while spawning is on
      every obstacle slides left, and one whose centre reaches half its width
      left of the screen has finished its run and leaves the scene. Once
      spawning has stopped the obstacles are frozen. */
  function ScrollObstacles(s: Scene, z: Sizes, shift: real): (r: Scene)
    requires z.Valid() && shift >= 0.0
    ensures !s.spawning ==> r == s
    ensures s.spawning ==> forall o :: o in r.obstacles ==> o.x > -z.obstacleWidth / 2.0
    ensures s.spawning ==> forall o :: o in s.obstacles && Moved(o, shift).x > -z.obstacleWidth / 2.0 ==>
      Moved(o, shift) in r.obstacles
    ensures s.spawning ==> forall o :: o in r.obstacles ==> exists p :: p in s.obstacles && Moved(p, shift) == o
    ensures s.spawning ==>
      forall o :: multiset(r.obstacles)[o] ==
        (if o.x > -z.obstacleWidth / 2.0 then multiset(MovedAll(s.obstacles, shift))[o] else 0)
    ensures Unpassed(r.obstacles) <= Unpassed(s.obstacles)
    ensures r == s.(obstacles := r.obstacles)
  {
    if s.spawning then s.(obstacles := Advance(s.obstacles, shift, -z.obstacleWidth / 2.0)) else s
  }

  /** Filtering keeps the top obstacles unpassed. */
  lemma {:induction false} SurvivorsKeepTopsUnpassed(obs: seq<Obstacle>, endX: real)
    requires TopsUnpassed(obs)
    ensures TopsUnpassed(Survivors(obs, endX))
  {
    if |obs| > 0 {
      assert TopsUnpassed(obs[1..]) by {
        forall i | 0 <= i < |obs[1..]| && obs[1..][i].kind == Top
          ensures !obs[1..][i].passed
        {
          assert obs[1..][i] == obs[i + 1];
        }
      }
      SurvivorsKeepTopsUnpassed(obs[1..], endX);
    }
  }

  /** Scrolling changes no passed mark, so it keeps the top obstacles unpassed. */
  lemma ScrollKeepsTopsUnpassed(s: Scene, z: Sizes, shift: real)
    requires z.Valid() && shift >= 0.0 && TopsUnpassed(s.obstacles)
    ensures TopsUnpassed(ScrollObstacles(s, z, shift).obstacles)
  {
    if s.spawning {
      var all := MovedAll(s.obstacles, shift);
      assert TopsUnpassed(all);
      SurvivorsKeepTopsUnpassed(all, -z.obstacleWidth / 2.0);
    }
  }
}

=== FILE: player.dfy ===
/** The player's motion: one explicit Euler step under gravity with a
    floor clamp, and the flap that overwrites the velocity. */
module Player {
  import opened Geometry
  import opened SceneState

  /** The lowest centre height the clamp allows: half the player's height
      above the playable floor. */
  function FloorY(z: Sizes): (y: real)
  {
    z.playableStart + z.playerHeight / 2.0
  }

  /** One integration step of length `s.dt`: gravity changes the velocity,
      the new velocity moves the player, and a player that sank below the
      floor is lifted back onto it. */
  function UpdatePlayer(s: Scene, z: Sizes): (r: Scene)
    ensures r.velocity == Vec(s.velocity.x, s.velocity.y + Gravity * s.dt)
    ensures r.position.x == s.position.x + r.velocity.x * s.dt
    ensures r.position.y == Max(s.position.y + r.velocity.y * s.dt, FloorY(z))
    ensures AboveFloor(r, z)
    ensures r == s.(position := r.position, velocity := r.velocity)
  {
    var v := Add(s.velocity, Scale(Vec(0.0, Gravity), s.dt));
    var p := Add(s.position, Scale(v, s.dt));
    var p' := if p.y - z.playerHeight / 2.0 < z.playableStart
              then Vec(p.x, z.playableStart + z.playerHeight / 2.0)
              else p;
    s.(velocity := v, position := p')
  }

  /** A scene whose player is where one step of length `r.dt` from `s`
      puts it, in closed form: the Euler step with the floor clamp. */
  lemma UpdatePlayerClosedForm(s: Scene, z: Sizes, r: Scene)
    requires r.velocity == UpdatePlayer(s.(dt := r.dt), z).velocity
    requires r.position == UpdatePlayer(s.(dt := r.dt), z).position
    ensures r.velocity == Vec(s.velocity.x, s.velocity.y + Gravity * r.dt)
    ensures r.position.x == s.position.x + r.velocity.x * r.dt
    ensures r.position.y == Max(s.position.y + r.velocity.y * r.dt, FloorY(z))
  {
    var c := s.(dt := r.dt);
    assert c.velocity == s.velocity && c.position == s.position && c.dt == r.dt;
  }

  /** Above the floor the step is plain Euler integration: the position
      moves by exactly the new velocity times dt. */
  lemma UpdatePlayerIsEuler(s: Scene, z: Sizes)
    requires s.position.y + (s.velocity.y + Gravity * s.dt) * s.dt >= FloorY(z)
    ensures UpdatePlayer(s, z).position == Add(s.position, Scale(UpdatePlayer(s, z).velocity, s.dt))
  {
  }

  /** Below the floor the clamp sets the height to exactly the floor height
      and touches neither x nor the velocity. */
  lemma UpdatePlayerClampsToFloor(s: Scene, z: Sizes)
    requires s.position.y + (s.velocity.y + Gravity * s.dt) * s.dt < FloorY(z)
    ensures UpdatePlayer(s, z).position.y == FloorY(z)
    ensures UpdatePlayer(s, z).position.x == s.position.x + s.velocity.x * s.dt
    ensures UpdatePlayer(s, z).velocity.x == s.velocity.x
  {
  }

  /** A step of zero length leaves a player that stands above the floor
      exactly where it was. */
  lemma UpdatePlayerZeroStep(s: Scene, z: Sizes)
    requires s.dt == 0.0 && AboveFloor(s, z)
    ensures UpdatePlayer(s, z) == s
  {
    var r := UpdatePlayer(s, z);
    assert r.position == s.position;
    assert r.velocity == s.velocity;
  }

  /** A flap sets the velocity to straight up at the impulse speed. */
  function FlapPlayer(s: Scene): (r: Scene)
    ensures r.velocity.x == 0.0 && r.velocity.y == Impulse
    ensures r == s.(velocity := r.velocity)
  {
    s.(velocity := Vec(0.0, Impulse))
  }

  /** Flapping overwrites rather than adds: whatever velocity the player had,
      the scene after the flap is the same. */
  lemma FlapForgetsVelocity(s: Scene, v: Vec, w: Vec)
    ensures FlapPlayer(s.(velocity := v)) == FlapPlayer(s.(velocity := w))
  {
  }
}

=== FILE: scene_state.dfy ===
/** The state of one game session (one GameScene instance), as an
    immutable record. Every operation of the scene is a pure function from
    one such record to the next. */
module SceneState {
  import opened Geometry

  datatype GameState = MainMenu | Tutorial | Play | Falling | ShowingScore | Gameover

  /** The states whose frames move the player: the running game and the
      fall after an obstacle hit. */
  predicate InFlight(state: GameState)
  {
    state == Play || state == Falling
  }

  /** The game names its obstacle sprites "BottomObstacle" and "TopObstacle";
      only bottom ones take part in scoring. */
  datatype ObstacleKind = Top | Bottom

  /** One cactus sprite. `passed` stands for the "Passed" entry of the
      sprite's user data; a sprite without that entry is not passed. */
  datatype Obstacle = Obstacle(kind: ObstacleKind, x: real, y: real, passed: bool)

  /** `spawning` stands for the keyed "spawn" action being installed on the
      scene; `tileA` and `tileB` are the x positions of the two ground tiles. */
  datatype Scene = Scene(
    state: GameState,
    hitGround: bool,
    hitObstacle: bool,
    lastUpdateTime: real,
    dt: real,
    position: Vec,
    velocity: Vec,
    tileA: real,
    tileB: real,
    obstacles: seq<Obstacle>,
    score: nat,
    bestScore: int,
    spawning: bool)

  /** True when the player's centre is at least half its height above the
      bottom of the playable band. */
  predicate AboveFloor(s: Scene, z: Sizes)
  {
    s.position.y - z.playerHeight / 2.0 >= z.playableStart
  }

  /** Top obstacles are never enumerated by scoring, so they never carry the
      passed mark. */
  predicate TopsUnpassed(obstacles: seq<Obstacle>)
  {
    forall i :: 0 <= i < |obstacles| ==> obstacles[i].kind == Top ==> !obstacles[i].passed
  }

  /** What a live session keeps true: the spawn action is installed exactly
      while the game is in Play, and no top obstacle is marked passed. */
  predicate Inv(s: Scene)
  {
    && (s.spawning <==> s.state == Play)
    && TopsUnpassed(s.obstacles)
  }

  /** A freshly presented scene: the property defaults, then what the scene
      does when it moves to its view (player placed, spawning started, one
      flap). Only the persisted best score is carried over. */
  function NewGame(z: Sizes, bestScore: int): (s: Scene)
    ensures s.state == Play && s.spawning
    ensures !s.hitGround && !s.hitObstacle
    ensures s.lastUpdateTime == 0.0 && s.dt == 0.0
    ensures s.velocity == Vec(0.0, Impulse)
    ensures s.position == Vec(z.sceneWidth * 0.2, z.playableHeight * 0.4 + z.playableStart)
    ensures s.tileA == 0.0 && s.tileB == z.sceneWidth
    ensures s.obstacles == [] && s.score == 0 && s.bestScore == bestScore
    ensures Inv(s)
  {
    Scene(
      state := Play,
      hitGround := false,
      hitObstacle := false,
      lastUpdateTime := 0.0,
      dt := 0.0,
      position := Vec(z.sceneWidth * 0.2, z.playableHeight * 0.4 + z.playableStart),
      velocity := Vec(0.0, Impulse),
      tileA := 0.0,
      tileB := z.sceneWidth,
      obstacles := [],
      score := 0,
      bestScore := bestScore,
      spawning := true)
  }
}

=== FILE: session.dfy ===
/** A whole session as a sequence of the events the engine delivers to the
    scene, and the properties that hold along every such run. */
module Session {
  import opened Geometry
  import opened SceneState
  import opened Obstacles
  import opened Transitions
  import opened Contacts
  import opened GameScene

  /** What the engine can do to the scene: render a frame, report a touch,
      report a contact, fire the spawn action (with its random draw), advance
      the obstacles' move actions, or end the scorecard's pop sequence. */
  datatype Event =
    | Frame(currentTime: real)
    | TouchBegan
    | ContactBegan(bodyA: bv32, bodyB: bv32)
    | SpawnFires(draw: real)
    | ObstaclesMove(shift: real)
    | ScorecardDone

  /** The engine's own guarantees: a draw lies in the unit interval and the
      obstacles only move forward. */
  predicate WellFormed(e: Event)
  {
    match e
    case SpawnFires(u) => 0.0 <= u <= 1.0
    case ObstaclesMove(shift) => shift >= 0.0
    case _ => true
  }

  /** The pop sequence is installed when the scorecard is shown, so it can
      only end while the score is being shown. */
  function Step(s: Scene, z: Sizes, e: Event): (r: Scene)
    requires z.Valid() && WellFormed(e)
    ensures CanStep(s.state, r.state)
    ensures r.bestScore >= s.bestScore
  {
    match e
    case Frame(t) => Tick(s, z, t)
    case TouchBegan => Touch(s, z)
    case ContactBegan(a, b) => Contact(s, a, b)
    case SpawnFires(u) => SpawnTimerFires(s, z, u)
    case ObstaclesMove(shift) => ScrollObstacles(s, z, shift)
    case ScorecardDone => if s.state == ShowingScore then SwitchToGameOver(s) else s
  }

  /** The scene after a run of events, applied in order. */
  function Run(s: Scene, z: Sizes, es: seq<Event>): (r: Scene)
    requires z.Valid() && forall i :: 0 <= i < |es| ==> WellFormed(es[i])
    decreases |es|
  {
    if |es| == 0 then s else Run(Step(s, z, es[0]), z, es[1..])
  }

  /** One step keeps the session invariant. */
  lemma StepKeepsInv(s: Scene, z: Sizes, e: Event)
    requires z.Valid() && WellFormed(e) && Inv(s)
    ensures Inv(Step(s, z, e))
  {
    match e
    case Frame(t) => TickKeepsInv(s, z, t);
    case TouchBegan => TouchKeepsInv(s, z);
    case ContactBegan(a, b) => ContactKeepsInv(s, a, b);
    case SpawnFires(u) => SpawnKeepsTopsUnpassed(s, z, u);
    case ObstaclesMove(shift) => ScrollKeepsTopsUnpassed(s, z, shift);
    case ScorecardDone =>
  }

  /** Every run from a scene satisfying the invariant keeps it: the spawn
      action is installed exactly while in Play, and no top obstacle is
      ever marked passed. */
  lemma {:induction false} RunKeepsInv(s: Scene, z: Sizes, es: seq<Event>)
    requires z.Valid() && forall i :: 0 <= i < |es| ==> WellFormed(es[i])
    requires Inv(s)
    ensures Inv(Run(s, z, es))
    decreases |es|
  {
    if |es| > 0 {
      StepKeepsInv(s, z, es[0]);
      RunKeepsInv(Step(s, z, es[0]), z, es[1..]);
    }
  }

  /** The best score never goes down along a run, across new sessions too. */
  lemma {:induction false} RunKeepsBest(s: Scene, z: Sizes, es: seq<Event>)
    requires z.Valid() && forall i :: 0 <= i < |es| ==> WellFormed(es[i])
    ensures Run(s, z, es).bestScore >= s.bestScore
    decreases |es|
  {
    if |es| > 0 {
      RunKeepsBest(Step(s, z, es[0]), z, es[1..]);
    }
  }

  /** Gameover is a dead end: touches are ignored there, so no run leaves
      it, and score, best score, obstacles and the player stay as they are. */
  lemma {:induction false} GameoverIsFinal(s: Scene, z: Sizes, es: seq<Event>)
    requires z.Valid() && forall i :: 0 <= i < |es| ==> WellFormed(es[i])
    requires Inv(s) && s.state == Gameover
    ensures var r := Run(s, z, es);
      && r.state == Gameover
      && r.score == s.score && r.bestScore == s.bestScore
      && r.obstacles == s.obstacles
      && r.position == s.position && r.velocity == s.velocity
    decreases |es|
  {
    if |es| > 0 {
      var next := Step(s, z, es[0]);
      StepKeepsInv(s, z, es[0]);
      GameoverIsFinal(next, z, es[1..]);
    }
  }
}

=== FILE: transitions.dfy ===
/** The game-state switches and the two per-frame checks that consume the
    contact flags. */
module Transitions {
  import opened Geometry
  import opened SceneState

  /** The best score the scorecard leaves behind: the current score when it
      beats the stored best, the stored best otherwise. */
  function ScorecardBest(score: int, best: int): (r: int)
    ensures r >= score && r >= best
    ensures r == score || r == best
  {
    if score > best then score else best
  }

  /** Entering Falling stops spawning (and with it the obstacles' motion). */
  function SwitchToFalling(s: Scene): (r: Scene)
    ensures r.state == Falling && !r.spawning
    ensures r == s.(state := Falling, spawning := false)
  {
    s.(state := Falling, spawning := false)
  }

  /** Entering ShowingScore stops spawning and lets the scorecard record a
      new best score. */
  function SwitchToShowScore(s: Scene): (r: Scene)
    ensures r.state == ShowingScore && !r.spawning
    ensures r.bestScore >= s.bestScore && r.bestScore >= s.score
    ensures r.bestScore == s.bestScore || r.bestScore == s.score
    ensures r == s.(state := ShowingScore, spawning := false, bestScore := r.bestScore)
  {
    s.(state := ShowingScore, spawning := false, bestScore := ScorecardBest(s.score, s.bestScore))
  }

  /** Run at the end of the scorecard's pop sequence. */
  function SwitchToGameOver(s: Scene): (r: Scene)
    ensures r.state == Gameover
    ensures r == s.(state := Gameover)
  {
    s.(state := Gameover)
  }

  /** Consumes a pending obstacle contact: the flag is cleared and the game
      falls. Without a pending contact nothing changes. */
  function CheckHitObstacle(s: Scene): (r: Scene)
    ensures !r.hitObstacle
    ensures s.hitObstacle ==> r == s.(hitObstacle := false, state := Falling, spawning := false)
    ensures !s.hitObstacle ==> r == s
  {
    if s.hitObstacle then SwitchToFalling(s.(hitObstacle := false)) else s
  }

  /** Consumes a pending ground contact: the flag is cleared, the player
      stops and is snapped onto the ground, and the score is shown. The snap
      height uses half the player's WIDTH, where the floor clamp uses half
      its height. Without a pending contact nothing changes. */
  function CheckHitGround(s: Scene, z: Sizes): (r: Scene)
    ensures !r.hitGround
    ensures s.hitGround ==>
      && r.state == ShowingScore && !r.spawning
      && r.velocity == Zero
      && r.position == Vec(s.position.x, z.playableStart + z.playerWidth / 2.0)
      && r.bestScore == ScorecardBest(s.score, s.bestScore)
      && r == s.(hitGround := false, velocity := Zero, position := r.position,
                 state := ShowingScore, spawning := false, bestScore := r.bestScore)
    ensures !s.hitGround ==> r == s
  {
    if s.hitGround then
      SwitchToShowScore(s.(hitGround := false, velocity := Zero,
                           position := Vec(s.position.x, z.playableStart + z.playerWidth / 2.0)))
    else s
  }

  /** Checks are idempotent: a second check finds its flag clear. */
  lemma ChecksIdempotent(s: Scene, z: Sizes)
    ensures CheckHitObstacle(CheckHitObstacle(s)) == CheckHitObstacle(s)
    ensures CheckHitGround(CheckHitGround(s, z), z) == CheckHitGround(s, z)
  {
  }
}
